=== FILE: README.md ===
# Article generator core, modelled in Dafny

This project models the core logic of a Next.js application that lets a
signed-in user request generated articles:

- the `article` table: its row type, NOT NULL and default rules, the
  on-update timestamp, and the cascade from the user table;
- the per-user sliding-window article quota: 6 articles per 24 hours;
- the validators for the two request payloads, applied to an untyped JSON value;
- the `/api/articles` list and create handlers, as operations on the table;
- the `/api/images` placeholder image handler;
- the authoring page's reference-text list and the request payload it builds.

Modules, one per source file plus shared helpers:

| module | file | models |
|---|---|---|
| `Wrappers` | `wrappers.dfy` | `Option` and `Result` |
| `Js` | `js.dfy` | the JavaScript values a parsed request body can hold: truthiness, `typeof`, property access, `String.prototype.trim` |
| `Seqs` | `seqs.dfy` | filter, map and a stable descending sort by key: the building blocks of the two `where … order by … desc` queries |
| `ArticlesSchema` | `articles_schema.dfy` | `db/articles-schema.ts`: the row, insert and update semantics, and the `ArticleTable` class |
| `Quota` | `quota.dfy` | `lib/article/quota.ts` |
| `Schemas` | `schemas.dfy` | `lib/article/schemas.ts` |
| `ArticlesRoute` | `articles_route.dfy` | `app/api/articles/route.ts` |
| `ImagesRoute` | `images_route.dfy` | `app/api/images/route.ts` |
| `AuthoringPage` | `authoring_page.dfy` | the state and handlers of `app/articles/page.tsx` |

The following are inputs to the model rather than things it computes:

- the session is an `Option<UserId>`;
- `Date.now()` is the parameter `now`, in integer milliseconds;
- `crypto.randomUUID()` is the parameter `freshId`. A collision is not
  excluded: the table's primary-key rule handles it;
- the `JSON.stringify(payload)` stored in the `inputJson` column is an
  arbitrary function parameter `stringify`;
- the parsed request body is a `Js.Value`.

Numbers are `Js.Number`: a finite real, or one of the two infinities or NaN.
This is exactly what `Number.isFinite` needs to distinguish.

## Model

| member | source | states |
|---|---|---|
| `Js.ObjectGate` | lib/article/schemas.ts:57-59 | `!payload \|\| typeof payload !== "object"` lets exactly arrays and objects through; null, which has typeof "object", is stopped by the truthiness test |
| `Js.Trim` | lib/article/schemas.ts:51-52 | the trimmed string is empty iff the input has no non-whitespace character; otherwise it starts and ends with non-whitespace, it is the contiguous slice after the leading whitespace, and only whitespace is dropped |
| `Js.TrimIdempotent` | lib/article/schemas.ts:51-52 | trimming twice equals trimming once |
| `Js.TrimKeepsContent` | app/articles/page.tsx:80-85 | trimming a string with non-whitespace content keeps it non-blank |
| `Seqs.SortDescBy` | lib/article/quota.ts:22 | the result is ordered by non-increasing key and is a permutation of the input |
| `Seqs.SelectProjectSort` | app/api/articles/route.ts:20-29 | select, project, then sort yields one item per selected row, every item is the projection of a selected row, every selected row's projection appears, and as a multiset the result is exactly the projected selection |
| `ArticlesSchema.InsertRow` | db/articles-schema.ts:8-25 | a missing `giselle_task_id` is a NOT NULL violation; otherwise an existing id is a primary-key violation; the insert succeeds iff neither applies; the new row defaults `status` to "queued" and both timestamps to the insert time; success keeps ids unique |
| `ArticlesSchema.Patched` | db/articles-schema.ts:22-25 | each of `status`, `title`, `bodyMarkdown`, `coverImageUrl` and `errorMessage` takes the patch's value when the patch sets it and keeps its old value otherwise; `updatedAt` becomes the current time, or the value the update itself gives; `id`, `userId`, `giselleTaskId`, `inputJson` and `createdAt` never change; an empty patch changes only `updatedAt` |
| `ArticlesSchema.UpdateRows` | db/articles-schema.ts:22-25 | an update by id patches exactly the rows with that id and leaves the others and the row count alone |
| `ArticlesSchema.ArticleTable.Insert` | db/articles-schema.ts:5-28 | the result is `InsertRow` on the old rows; the row is appended on success and the table is unchanged on failure; ids stay unique |
| `ArticlesSchema.ArticleTable.Update` | db/articles-schema.ts:22-25 | the rows become `UpdateRows` of the old rows; the row count is kept; ids stay unique |
| `ArticlesSchema.ArticleTable.DeleteUser` | db/articles-schema.ts:9-11 | deleting a user cascades: none of their rows remain, every other row is kept in order, and ids stay unique |
| `ArticlesSchema.FilterKeepsUniqueIds` | db/articles-schema.ts:8 | removing rows never breaks primary-key uniqueness |
| `Quota.GetRecentArticles` | lib/article/quota.ts:16-23 | the timestamps come in non-increasing order, and as a multiset they are exactly the `createdAt` values of the user's rows with `createdAt >= now - 24h`, one per row |
| `Quota.RecentArticlesAreCounted` | lib/article/quota.ts:17-21 | every returned timestamp belongs to one of the user's rows inside the inclusive window |
| `Quota.MinOf` | lib/article/quota.ts:34-35 | the minimum is an element of the list and no element is smaller |
| `Quota.GetArticleQuota` | lib/article/quota.ts:25-45 | `limit` is 6 and `windowMs` is 86,400,000; `used` counts the user's rows inside the inclusive window; `remaining = max(6 - used, 0)`, so `0 <= remaining <= 6` and `remaining == 0` iff `used >= 6`; `nextRefillAt` is null iff `used == 0` |
| `Quota.QuotaRefillIsEarliest` | lib/article/quota.ts:31-36 | a non-null `nextRefillAt` is `createdAt + window` of some counted row and is at most that value for every counted row |
| `Quota.QuotaRefillNotBeforeNow` | lib/article/quota.ts:17-36 | a non-null `nextRefillAt` is not earlier than `now` |
| `Quota.QuotaRefillFromOldestRow` | lib/article/quota.ts:22-35 | a non-null `nextRefillAt` is the last (oldest) returned row's time plus the window |
| `Quota.QuotaAppendCounted` | lib/article/quota.ts:29-30 | one more in-window row of the user raises `used` by exactly 1 and never raises `remaining` |
| `Quota.QuotaAppendUncounted` | lib/article/quota.ts:17-21 | a row of another user, or one older than the window, changes nothing in the quota |
| `Quota.QuotaAfterUserDeleted` | lib/article/quota.ts:25-45 | after the user's rows are deleted, the quota is full: used 0, remaining 6, no refill time |
| `Quota.QuotaUnchangedByUpdate` | lib/article/quota.ts:16-23 | updating a row, which bumps only `updatedAt` among the timestamps, never changes anyone's quota |
| `Quota.SixInWindowExhaustQuota` | lib/article/quota.ts:5-36 | in any table, at least six of the user's rows inside the window leave nothing remaining, and the refill comes at the earliest counted row's time plus the window |
| `Schemas.ParseStatus` | lib/article/schemas.ts:1 | a recognised status string maps back to the same text |
| `Schemas.StatusTextRoundTrip` | lib/article/schemas.ts:1 | each of the four statuses parses back from its text |
| `Schemas.IsNonEmptyString` | lib/article/schemas.ts:51-52 | holds iff the value is a string with at least one non-whitespace character |
| `Schemas.NonBlankAtMember` | lib/article/schemas.ts:62-70 | a nested field is non-blank iff `isNonEmptyString` holds for the two-step property access |
| `Schemas.ValidateCreateArticleRequest` | lib/article/schemas.ts:54-71 | false for null and every non-object; otherwise true iff it is an object and its description, language, tone and target audience are non-blank strings, both reference lists are arrays, and `imageGeneration.enabled` is a boolean |
| `Schemas.ValidateGenerateImageRequest` | lib/article/schemas.ts:73-90 | a non-object gives "Payload must be an object."; a blank or missing prompt gives "Prompt is required." before count is looked at; a non-finite or non-positive count gives "Count must be a positive number."; ok iff an object with a non-blank prompt and a finite positive count |
| `Schemas.ArrayPayloadIsMissingPrompt` | lib/article/schemas.ts:54-83 | an array passes the object gate, so it fails the create validator on its missing fields and the image validator with "Prompt is required." |
| `Schemas.ImageValidationIgnoresOtherFields` | lib/article/schemas.ts:80-89 | changing any field other than `prompt` and `count` (style, aspect ratio, seed, references) never changes the image validation result |
| `Schemas.ValidateEncodedCreateRequest` | lib/article/schemas.ts:62-70 | a well-typed request passes iff its four required strings are non-blank; reference lists of any length and content, length, format, aspect ratio, count and the image prompt are not inspected |
| `Schemas.ValidateEncodedImageRequest` | lib/article/schemas.ts:81-89 | a well-typed image request is ok iff its prompt is non-blank and its count is finite and positive, and it reports the first failing check |
| `ArticlesRoute.ListOwnArticles` | app/api/articles/route.ts:20-29 | the list holds exactly the caller's rows, projected to id/title/status/createdAt, one item per row (as a multiset, the projections of the caller's rows), in non-increasing `createdAt` order |
| `ArticlesRoute.ListedItemsAreOwn` | app/api/articles/route.ts:28 | every listed item is the projection of one of the caller's own rows |
| `ArticlesRoute.Get` | app/api/articles/route.ts:14-32 | 401 iff there is no session; otherwise the caller's own articles, newest first, each exactly once |
| `ArticlesRoute.ArticleInsert` | app/api/articles/route.ts:49-58 | the values the handler inserts: status "generating", null title, body, cover URL and error message, and the serialised payload as `inputJson` |
| `ArticlesRoute.ArticleInsertStoresCreatedRow` | app/api/articles/route.ts:49-58 | with a task id and an unused id, the database stores exactly the created row, with both timestamps at the insert time |
| `ArticlesRoute.PostInsertRefused` | app/api/articles/route.ts:49-58 | the row the handler builds has no `giselleTaskId`, so the insert is refused with a NOT NULL violation whatever the table holds |
| `ArticlesRoute.Post` | app/api/articles/route.ts:34-61 | no session gives 401 "Unauthorized" and an invalid payload gives 400 "Invalid request payload.", with the table untouched; a valid payload ends in the refused insert; the handler never answers 429; the table never changes |
| `ArticlesRoute.Create` | app/api/articles/route.ts:34-61 | the corrected handler: 401 and 400 with the same error texts, then 429 with the quota snapshot when nothing remains; otherwise exactly one row is appended, with the fresh id, the caller as owner, status "generating", null outputs, the serialised payload and equal timestamps, and earlier rows are kept. The id is refused only on a primary-key clash. A successful create uses one quota slot and never goes over 6 |
| `ImagesRoute.Width` | app/api/images/route.ts:24 | the width is 1024 or 1200, and 1024 exactly when the ratio is "1:1" |
| `ImagesRoute.Height` | app/api/images/route.ts:25 | the height is 675 or 900, and 900 exactly when the ratio is "4:3" |
| `ImagesRoute.PlaceholderSizes` | app/api/images/route.ts:24-25 | 16:9 gives 1200×675, 4:3 gives 1200×900, 1:1 gives 1024×675 (not square), and any other value 1200×675 |
| `ImagesRoute.NatToDecimal` | app/api/images/route.ts:26 | the template's number rendering gives decimal digits without a leading zero |
| `ImagesRoute.DecimalRoundTrip` | app/api/images/route.ts:26 | reading the rendered decimal back gives the original number |
| `ImagesRoute.PlaceholderUrls` | app/api/images/route.ts:26 | the three URLs are `https://placehold.co/{w}x{h}/png?text=Generated+Image` with the sizes above |
| `ImagesRoute.Post` | app/api/images/route.ts:11-32 | 401 without a session; 400 with exactly the validator's error; success iff signed in and valid, carrying the fresh id and the URL of the requested aspect ratio; a missing or unrecognised ratio gets the 1200x675 URL |
| `ImagesRoute.TypedRequestSize` | app/api/images/route.ts:17-31 | a well-typed image request with a non-blank prompt and positive count succeeds with the URL its aspect ratio selects |
| `Schemas.EncodeCreateRequest` | app/articles/page.tsx:154-159 | the article request the page sends is an object with exactly the keys `article`, `prompt`, `references` and `imageGeneration`; it carries the description, one text entry per reference text with its content, one image entry per reference image, and the count |
| `Schemas.EncodeImageRequest` | app/articles/page.tsx:146-151 | the image request the page sends is an object with prompt, style, aspect ratio and count; `seed` and `referenceImageDataUrls` are present exactly when set; prompt, count and ratio carry the request's values |
| `AuthoringPage.CreateReferenceText` | app/articles/page.tsx:20-23 | a new reference text is sent as an object with exactly the keys `id` (the fresh id) and `content`; no `title` key |
| `AuthoringPage.ImagePrompt` | app/articles/page.tsx:132 | the image prompt is the description, or the fallback when the description is empty; it is non-blank iff the description is empty or non-blank |
| `AuthoringPage.BuildArticleRequest` | app/articles/page.tsx:115-137 | the payload always has language "ja", tone "professional", audience "general", length "medium", format "markdown", and image generation enabled with style "photorealistic", 16:9 and count 1; the image prompt is the description, or "Article cover image" when the description is empty |
| `AuthoringPage.BuildImageRequest` | app/articles/page.tsx:140-145 | the image request copies prompt, style, aspect ratio and count from the payload and sets no seed or reference images |
| `AuthoringPage.FixedSettingsAreNonBlank` | app/articles/page.tsx:117-119 | the fixed language, tone and audience are non-blank |
| `AuthoringPage.SubmittedRequestValidIff` | app/articles/page.tsx:115-137 | the page's payload passes the create validator iff the description has a non-whitespace character |
| `AuthoringPage.SubmittedImageRequestValidIff` | app/articles/page.tsx:132-145 | the page's image request passes the image validator iff the description is empty (the fallback prompt applies) or has a non-whitespace character |
| `AuthoringPage.IsOverLimit` | app/articles/page.tsx:189 | no loaded quota is never over the limit; a loaded, consistent snapshot is over the limit iff `used >= limit` |
| `AuthoringPage.SubmitDisabled` | app/articles/page.tsx:189 | without a quota, submit is disabled iff submitting; with a consistent snapshot, iff submitting or `used >= limit` |
| `AuthoringPage.SubmitDisabledIffWindowFull` | app/articles/page.tsx:189 | with the endpoint's snapshot, submit is disabled iff submitting or at least 6 of the user's rows are in the window; with no quota loaded, iff submitting |
| `AuthoringPage.OverLimitIffWindowFull` | app/articles/page.tsx:189 | with the quota loaded, the page is over the limit iff the user has at least 6 rows in the window |
| `AuthoringPage.ArticlesPage.constructor` | app/articles/page.tsx:45-55 | the page starts with empty fields and lists, not submitting, no error and no quota |
| `AuthoringPage.ArticlesPage.SetDescription` | app/articles/page.tsx:259 | only the description changes |
| `AuthoringPage.ArticlesPage.SetTextInput` | app/articles/page.tsx:277 | only the text input changes |
| `AuthoringPage.ArticlesPage.HandleAddText` | app/articles/page.tsx:79-88 | blank input changes nothing; otherwise exactly one item with the trimmed content and the fresh id is appended, earlier items are kept, and the input is cleared; every stored text stays non-blank |
| `AuthoringPage.ArticlesPage.HandleRemoveText` | app/articles/page.tsx:90-92 | every item with the id is removed and the others keep their order |
| `AuthoringPage.ArticlesPage.HandleSubmit` | app/articles/page.tsx:110-145 | sets submitting, clears the error, and returns the payload and image request built from the current state; every reference text it sends is trimmed and non-blank, the invariant `HandleAddText` and `HandleRemoveText` keep |
| `AuthoringPage.RemoveTextKeepsOrder` | app/articles/page.tsx:91 | removal distributes over concatenation, so the survivors keep their relative order |
| `AuthoringPage.RemoveAbsentText` | app/articles/page.tsx:91 | removing an id that no item carries leaves the list unchanged |

## Left out

- Session lookup (`auth.api.getSession`): the session is an input. The
  users table is not part of this model. The cascade from it is
  `ArticleTable.DeleteUser`.
- The Drizzle client and SQL: the table is an in-memory sequence of rows.
  Query results follow the semantics of the `where` and `order by` clauses.
- `Quota.GetRecentArticles`, `ArticlesRoute.ListOwnArticles` and
  `ArticlesRoute.Get`: rows with equal `createdAt` come out in table order.
  SQL leaves the order of ties unspecified, so no lemma depends on it.
- `ArticlesSchema.Patched`: an update may set only `status`, the four
  nullable output columns and `updatedAt`. The schema itself would also let
  an update rewrite `id`, `userId`, `giselleTaskId`, `inputJson` or
  `createdAt`. No shown code issues such an update, so the model leaves it
  out. Hence the guarantee that these columns never change, and
  `Quota.QuotaUnchangedByUpdate`, hold for the modelled updates only.
- `Quota.QuotaRefillNotBeforeNow`: it states only the lower bound `now`. A
  row with a `createdAt` in the future is counted, so no upper bound holds
  in general.
- `request.json()` parse failures: the model starts from the parsed value.
  For `inputJson`, `JSON.stringify` is an arbitrary function, and no round
  trip through it is claimed.
- `Schemas.EncodeCreateRequest`, `Schemas.EncodeImageRequest`: the request
  bodies the page sends are not serialised and parsed. The model assumes that
  `request.json()` of `JSON.stringify(req)` is the object these functions
  build, with the same keys and values. `SubmittedRequestValidIff`,
  `SubmittedImageRequestValidIff`, `ValidateEncodedCreateRequest`,
  `ValidateEncodedImageRequest` and `TypedRequestSize` rest on that
  assumption. One known difference: `JSON.stringify` writes NaN and the
  infinities as `null`, while the encoders keep them as numbers. Neither form
  passes `Number.isFinite`, so every validation verdict is the same.
- Floating point: the page's `remainingPercent` and `refillHours` are display
  values and are not modelled. `count` is a `Js.Number` with finite,
  infinite and NaN cases, not an IEEE double.
- The following page parts are not modelled: `createReferenceImage` and its
  `FileReader` data URLs, `handleFileChange`, `handleRemoveImage`, quota
  loading, the `fetch` calls, response handling and router navigation, and
  all JSX and locale date formatting.
- `app/api/articles/quota/route.ts`, a one-line wrapper around
  `getArticleQuota`, is not part of this model. Neither are the sidebar,
  layout, dashboard, landing and sign-up pages.
- The article lifecycle after creation (generating, completed, error): no
  shown code performs these transitions. Only the status type is modelled.
- Concurrency: requests are modelled one at a time. A race between a quota
  read and an insert is not modelled.

## Findings

In both rows the model follows the code as written (`ArticlesRoute.Post`).
The corrected handler (`ArticlesRoute.Create`) is what the rest of the
application expects.

| source | as written | input that shows it | evidently intended | confidence | as-written member | corrected member |
|---|---|---|---|---|---|---|
| app/api/articles/route.ts:49-58 | the insert omits `giselleTaskId`, a NOT NULL column (db/articles-schema.ts:13), so every valid POST is refused by the database and answered with a server error | any signed-in user with a valid payload, such as the page's payload with description "x" | the row carries the id of the generation task it started, and the insert succeeds | high, not executed | `ArticlesRoute.PostInsertRefused` | `ArticlesRoute.Create` |
| app/api/articles/route.ts:34-61 | POST never consults `getArticleQuota`, so it never answers 429, although the page handles a 429 with a quota body (app/articles/page.tsx:164) and hides submit when over the limit | a user with six articles created in the last 24 hours posts a valid payload | answer 429 with the quota snapshot when `remaining` is 0, and never let `used` exceed 6 | medium, not executed | `ArticlesRoute.Post` | `ArticlesRoute.Create` |

=== FILE: articles_route.dfy ===
/**
 * `/api/articles`: listing the caller's articles and creating one. The session
 * is `Option<UserId>`, the fresh UUID and the clock are parameters, and
 * `JSON.stringify` is the function parameter `stringify`.
 */
module ArticlesRoute {
  import opened Wrappers
  import opened Js
  import opened Seqs
  import opened ArticlesSchema
  import opened Quota
  import opened Schemas

  const UnauthorizedError: string := "Unauthorized"
  const InvalidPayloadError: string := "Invalid request payload."

  /** The columns the list query selects. */
  datatype ArticleSummary = ArticleSummary(id: string, title: Option<string>, status: string, createdAt: int)

  function Summary(a: Article): ArticleSummary {
    ArticleSummary(a.id, a.title, a.status, a.createdAt)
  }

  function SummaryCreatedAt(s: ArticleSummary): int {
    s.createdAt
  }

  function OwnedBy(userId: string): Article -> bool {
    (a: Article) => a.userId == userId
  }

  ghost function OwnedPositions(rows: seq<Article>, userId: string): set<int> {
    set i | 0 <= i < |rows| && rows[i].userId == userId
  }

  /** `select id, title, status, createdAt where userId = ? order by createdAt desc`. */
  function ListOwnArticles(rows: seq<Article>, userId: string): (items: seq<ArticleSummary>)
    ensures SortedDescBy(items, SummaryCreatedAt)
    ensures |items| == |OwnedPositions(rows, userId)|
    ensures multiset(items) == multiset(MapSeq(Filter(rows, OwnedBy(userId)), Summary))
    ensures forall k :: 0 <= k < |items| ==> IsImageOfSelected(rows, OwnedBy(userId), Summary, items[k])
    ensures forall i :: 0 <= i < |rows| && rows[i].userId == userId ==> Summary(rows[i]) in items
  {
    SelectProjectSort(rows, OwnedBy(userId), Summary, SummaryCreatedAt);
    assert IndicesWhere(rows, OwnedBy(userId)) == OwnedPositions(rows, userId);
    SortDescBy(MapSeq(Filter(rows, OwnedBy(userId)), Summary), SummaryCreatedAt)
  }

  /** Every listed item is the summary of one of the caller's own rows. */
  lemma ListedItemsAreOwn(rows: seq<Article>, userId: string, k: int)
    requires 0 <= k < |ListOwnArticles(rows, userId)|
    ensures exists i :: 0 <= i < |rows| && rows[i].userId == userId
                        && ListOwnArticles(rows, userId)[k] == Summary(rows[i])
  {
    var items := ListOwnArticles(rows, userId);
    assert IsImageOfSelected(rows, OwnedBy(userId), Summary, items[k]);
    var i :| 0 <= i < |rows| && OwnedBy(userId)(rows[i]) && Summary(rows[i]) == items[k];
  }

  datatype ListResponse = ListUnauthorized | ArticleList(articles: seq<ArticleSummary>) {
    function StatusCode(): int {
      if ListUnauthorized? then 401 else 200
    }
  }

  /** GET: 401 without a session, otherwise the caller's articles newest first. */
  function Get(table: ArticleTable, session: Option<string>): (r: ListResponse)
    reads table
    ensures session.None? <==> r == ListUnauthorized
    ensures r.ArticleList? ==> SortedDescBy(r.articles, SummaryCreatedAt)
    ensures r.ArticleList? ==> |r.articles| == |OwnedPositions(table.rows, session.value)|
    ensures r.ArticleList? ==> multiset(r.articles) == multiset(MapSeq(Filter(table.rows, OwnedBy(session.value)), Summary))
    ensures r.ArticleList? ==> forall i :: 0 <= i < |table.rows| && table.rows[i].userId == session.value
                                 ==> Summary(table.rows[i]) in r.articles
  {
    if session.None? then ListUnauthorized
    else ArticleList(ListOwnArticles(table.rows, session.value))
  }

  datatype CreateResponse =
    | CreateUnauthorized
    | InvalidPayload
    | QuotaExceeded(quota: ArticleQuota)
    | InsertFailed(reason: ConstraintError)
    | Created(articleId: string)
  {
    function StatusCode(): int {
      match this
      case CreateUnauthorized => 401
      case InvalidPayload => 400
      case QuotaExceeded(_) => 429
      case InsertFailed(_) => 500
      case Created(_) => 200
    }

    function ErrorText(): Option<string> {
      match this
      case CreateUnauthorized => Some(UnauthorizedError)
      case InvalidPayload => Some(InvalidPayloadError)
      case _ => None
    }
  }

  /**
   * The values the handler inserts: status "generating", null outputs, the
   * serialised payload, and a `giselleTaskId` only when one is given.
   */
  function ArticleInsert(articleId: string, userId: string, giselleTaskId: Option<string>,
                         payload: Value, stringify: Value -> string): (v: NewArticle)
    ensures v.status.Some? && ParseStatus(v.status.value) == Some(Generating)
    ensures v.title.None? && v.bodyMarkdown.None? && v.coverImageUrl.None? && v.errorMessage.None?
    ensures v.inputJson == stringify(payload)
  {
    NewArticle(articleId, userId, Some(Generating.Text()), giselleTaskId, None, None, None,
               stringify(payload), None, None, None)
  }

  /** The row POST builds lacks `giselleTaskId`, so every such insert is refused, whatever the table holds. */
  lemma PostInsertRefused(rows: seq<Article>, articleId: string, userId: string, payload: Value,
                          stringify: Value -> string, now: int)
    ensures InsertRow(rows, ArticleInsert(articleId, userId, None, payload, stringify), now)
            == Failure(NotNullViolation("giselle_task_id"))
  {
  }

  /**
   * POST as written: after the session and payload checks it inserts a row
   * without `giselleTaskId`, which the NOT NULL constraint refuses; the table
   * never changes, and the quota is never consulted (no 429).
   */
  method Post(table: ArticleTable, session: Option<string>, payload: Value, freshId: string,
              stringify: Value -> string, now: int) returns (r: CreateResponse)
    requires table.Valid()
    modifies table
    ensures table.Valid()
    ensures session.None? ==> r == CreateUnauthorized
    ensures session.Some? && !ValidateCreateArticleRequest(payload) ==> r == InvalidPayload
    ensures session.Some? && ValidateCreateArticleRequest(payload)
            ==> r == InsertFailed(NotNullViolation("giselle_task_id"))
    ensures r.StatusCode() != 429
    ensures r == CreateUnauthorized ==> r.ErrorText() == Some(UnauthorizedError)
    ensures r == InvalidPayload ==> r.ErrorText() == Some(InvalidPayloadError)
    ensures table.rows == old(table.rows)
  {
    if session.None? {
      return CreateUnauthorized;
    }
    if !ValidateCreateArticleRequest(payload) {
      return InvalidPayload;
    }
    var articleId := freshId;
    var inserted := table.Insert(ArticleInsert(articleId, session.value, None, payload, stringify), now);
    if inserted.Failure? {
      return InsertFailed(inserted.error);
    }
    return Created(articleId);
  }

  /** With a task id and an unused id, the insert stores exactly `CreatedRow`, stamped with the insert time. */
  lemma ArticleInsertStoresCreatedRow(rows: seq<Article>, articleId: string, userId: string, giselleTaskId: string,
                                      payload: Value, stringify: Value -> string, now: int)
    requires !HasId(rows, articleId)
    ensures InsertRow(rows, ArticleInsert(articleId, userId, Some(giselleTaskId), payload, stringify), now)
            == Success(CreatedRow(articleId, userId, giselleTaskId, payload, stringify, now))
  {
  }

  /** The row a successful creation stores. */
  function CreatedRow(articleId: string, userId: string, giselleTaskId: string,
                      payload: Value, stringify: Value -> string, now: int): Article
  {
    Article(articleId, userId, "generating", giselleTaskId, None, None, None, stringify(payload), None, now, now)
  }

  /**
   * POST as the client expects it: the session and payload checks, then the
   * quota (429 with the snapshot when nothing remains), then one row carrying
   * the generation task id.
   */
  method Create(table: ArticleTable, session: Option<string>, payload: Value, freshId: string,
                giselleTaskId: string, stringify: Value -> string, now: int) returns (r: CreateResponse)
    requires table.Valid()
    modifies table
    ensures table.Valid()
    ensures session.None? ==> r == CreateUnauthorized
    ensures session.Some? && !ValidateCreateArticleRequest(payload) ==> r == InvalidPayload
    ensures session.Some? && ValidateCreateArticleRequest(payload)
            && GetArticleQuota(old(table.rows), session.value, now).remaining == 0
            ==> r == QuotaExceeded(GetArticleQuota(old(table.rows), session.value, now))
    ensures session.Some? && ValidateCreateArticleRequest(payload)
            && GetArticleQuota(old(table.rows), session.value, now).remaining > 0
            ==> r == if HasId(old(table.rows), freshId) then InsertFailed(PrimaryKeyViolation(freshId))
                     else Created(freshId)
    ensures r == CreateUnauthorized ==> r.ErrorText() == Some(UnauthorizedError)
    ensures r == InvalidPayload ==> r.ErrorText() == Some(InvalidPayloadError)
    ensures !r.Created? ==> table.rows == old(table.rows)
    ensures r.Created? ==>
      table.rows == old(table.rows) + [CreatedRow(freshId, session.value, giselleTaskId, payload, stringify, now)]
    ensures r.Created? ==>
      && GetArticleQuota(table.rows, session.value, now).used
           == GetArticleQuota(old(table.rows), session.value, now).used + 1
      && GetArticleQuota(table.rows, session.value, now).used <= ArticleRateLimit
  {
    if session.None? {
      return CreateUnauthorized;
    }
    if !ValidateCreateArticleRequest(payload) {
      return InvalidPayload;
    }
    var userId := session.value;
    var quota := GetArticleQuota(table.rows, userId, now);
    if quota.remaining <= 0 {
      return QuotaExceeded(quota);
    }
    var articleId := freshId;
    var inserted := table.Insert(ArticleInsert(articleId, userId, Some(giselleTaskId), payload, stringify), now);
    if inserted.Failure? {
      return InsertFailed(inserted.error);
    }
    QuotaAppendCounted(old(table.rows), inserted.value, userId, now);
    return Created(articleId);
  }
}

=== FILE: articles_schema.dfy ===
/**
 * The `article` table: one row per generation request. Non-null columns are
 * plain fields, nullable ones are `Option`s; times are integer milliseconds.
 * The table itself is a class whose row sequence the handlers change in place,
 * with the constraints the database enforces on every insert.
 */
module ArticlesSchema {
  import opened Wrappers
  import opened Seqs

  datatype Article = Article(
    id: string,
    userId: string,
    status: string,
    giselleTaskId: string,
    title: Option<string>,
    bodyMarkdown: Option<string>,
    coverImageUrl: Option<string>,
    inputJson: string,
    errorMessage: Option<string>,
    createdAt: int,
    updatedAt: int)

  /** The value of `status` when an insert leaves it out. */
  const DefaultStatus: string := "queued"

  /**
   * The column values one insert statement supplies. `None` in a non-null
   * column means the statement leaves that column out; a nullable column left
   * out is null.
   */
  datatype NewArticle = NewArticle(
    id: string,
    userId: string,
    status: Option<string>,
    giselleTaskId: Option<string>,
    title: Option<string>,
    bodyMarkdown: Option<string>,
    coverImageUrl: Option<string>,
    inputJson: string,
    errorMessage: Option<string>,
    createdAt: Option<int>,
    updatedAt: Option<int>)

  /** Why the database refuses an insert. */
  datatype ConstraintError = NotNullViolation(column: string) | PrimaryKeyViolation(id: string)

  /**
   * The columns an update statement sets; `None` leaves a column as it is.
   * For a nullable column, `Some(None)` sets it to null. An explicit
   * `updatedAt` takes the place of the column's on-update value.
   */
  datatype ArticlePatch = ArticlePatch(
    status: Option<string>,
    title: Option<Option<string>>,
    bodyMarkdown: Option<Option<string>>,
    coverImageUrl: Option<Option<string>>,
    errorMessage: Option<Option<string>>,
    updatedAt: Option<int>)

  /** `id` is the primary key. */
  ghost predicate UniqueIds(rows: seq<Article>) {
    forall i, j :: 0 <= i < j < |rows| ==> rows[i].id != rows[j].id
  }

  predicate HasId(rows: seq<Article>, id: string) {
    exists i :: 0 <= i < |rows| && rows[i].id == id
  }

  /**
   * What the database does with one insert at time `now`: the NOT NULL check
   * on `giselle_task_id` (the one non-null column without a default), then the
   * primary-key check, then the row with its defaults filled in.
   */
  function InsertRow(rows: seq<Article>, v: NewArticle, now: int): (r: Result<Article, ConstraintError>)
    ensures v.giselleTaskId.None? ==> r == Failure(NotNullViolation("giselle_task_id"))
    ensures v.giselleTaskId.Some? && HasId(rows, v.id) ==> r == Failure(PrimaryKeyViolation(v.id))
    ensures r.Success? <==> v.giselleTaskId.Some? && !HasId(rows, v.id)
    ensures r.Success? ==> UniqueIds(rows) ==> UniqueIds(rows + [r.value])
    ensures r.Success? ==>
      && r.value.id == v.id && r.value.userId == v.userId
      && r.value.giselleTaskId == v.giselleTaskId.value
      && r.value.status == (if v.status.Some? then v.status.value else "queued")
      && r.value.title == v.title && r.value.bodyMarkdown == v.bodyMarkdown
      && r.value.coverImageUrl == v.coverImageUrl && r.value.errorMessage == v.errorMessage
      && r.value.inputJson == v.inputJson
      && r.value.createdAt == (if v.createdAt.Some? then v.createdAt.value else now)
      && r.value.updatedAt == (if v.updatedAt.Some? then v.updatedAt.value else now)
  {
    if v.giselleTaskId.None? then Failure(NotNullViolation("giselle_task_id"))
    else if HasId(rows, v.id) then Failure(PrimaryKeyViolation(v.id))
    else
      Success(Article(
        v.id, v.userId, v.status.GetOr(DefaultStatus), v.giselleTaskId.value,
        v.title, v.bodyMarkdown, v.coverImageUrl, v.inputJson, v.errorMessage,
        v.createdAt.GetOr(now), v.updatedAt.GetOr(now)))
  }

  /**
   * A row after an update at time `now`: the patched columns take their new
   * values, `updatedAt` becomes `now` (the column's on-update rule) unless the
   * update sets it itself, and `id`, `userId`, `giselleTaskId`, `inputJson`
   * and `createdAt` keep theirs.
   */
  function Patched(a: Article, patch: ArticlePatch, now: int): (r: Article)
    ensures patch.updatedAt.None? ==> r.updatedAt == now
    ensures patch.updatedAt.Some? ==> r.updatedAt == patch.updatedAt.value
    ensures r.id == a.id && r.userId == a.userId && r.giselleTaskId == a.giselleTaskId
    ensures r.inputJson == a.inputJson && r.createdAt == a.createdAt
    ensures patch.status.Some? ==> r.status == patch.status.value
    ensures patch.status.None? ==> r.status == a.status
    ensures patch.title.Some? ==> r.title == patch.title.value
    ensures patch.title.None? ==> r.title == a.title
    ensures patch.bodyMarkdown.Some? ==> r.bodyMarkdown == patch.bodyMarkdown.value
    ensures patch.bodyMarkdown.None? ==> r.bodyMarkdown == a.bodyMarkdown
    ensures patch.coverImageUrl.Some? ==> r.coverImageUrl == patch.coverImageUrl.value
    ensures patch.coverImageUrl.None? ==> r.coverImageUrl == a.coverImageUrl
    ensures patch.errorMessage.Some? ==> r.errorMessage == patch.errorMessage.value
    ensures patch.errorMessage.None? ==> r.errorMessage == a.errorMessage
    ensures patch == ArticlePatch(None, None, None, None, None, None) ==> r == a.(updatedAt := now)
  {
    a.(status := patch.status.GetOr(a.status),
       title := patch.title.GetOr(a.title),
       bodyMarkdown := patch.bodyMarkdown.GetOr(a.bodyMarkdown),
       coverImageUrl := patch.coverImageUrl.GetOr(a.coverImageUrl),
       errorMessage := patch.errorMessage.GetOr(a.errorMessage),
       updatedAt := patch.updatedAt.GetOr(now))
  }

  /** The table after `update article set ... where id = ?` at time `now`. */
  function UpdateRows(rows: seq<Article>, id: string, patch: ArticlePatch, now: int): (r: seq<Article>)
    ensures |r| == |rows|
    ensures forall i :: 0 <= i < |rows| ==>
      r[i] == if rows[i].id == id then Patched(rows[i], patch, now) else rows[i]
  {
    seq(|rows|, i requires 0 <= i < |rows| =>
      if rows[i].id == id then Patched(rows[i], patch, now) else rows[i])
  }

  /** Rows not owned by `userId`. */
  function NotOwnedBy(userId: string): Article -> bool {
    (a: Article) => a.userId != userId
  }

  class ArticleTable {
    var rows: seq<Article>

    ghost predicate Valid()
      reads this
    {
      UniqueIds(rows)
    }

    constructor ()
      ensures Valid() && rows == []
    {
      rows := [];
    }

    /** `insert into article values (...)`: one row appended, or nothing on a constraint error. */
    method Insert(v: NewArticle, now: int) returns (r: Result<Article, ConstraintError>)
      requires Valid()
      modifies this
      ensures Valid()
      ensures r == InsertRow(old(rows), v, now)
      ensures rows == if r.Success? then old(rows) + [r.value] else old(rows)
    {
      r := InsertRow(rows, v, now);
      if r.Success? {
        rows := rows + [r.value];
      }
    }

    /** `update article set ... where id = ?`: every row with that id is patched, the others stay. */
    method Update(id: string, patch: ArticlePatch, now: int)
      requires Valid()
      modifies this
      ensures Valid()
      ensures rows == UpdateRows(old(rows), id, patch, now)
      ensures |rows| == |old(rows)|
      ensures forall i :: 0 <= i < |rows| ==>
        rows[i] == if old(rows)[i].id == id then Patched(old(rows)[i], patch, now) else old(rows)[i]
    {
      rows := UpdateRows(rows, id, patch, now);
    }

    /** The `on delete cascade` of `user_id`: deleting a user deletes all of that user's rows. */
    method DeleteUser(userId: string)
      requires Valid()
      modifies this
      ensures Valid()
      ensures rows == Filter(old(rows), NotOwnedBy(userId))
      ensures forall i :: 0 <= i < |rows| ==> rows[i].userId != userId
      ensures forall i :: 0 <= i < |old(rows)| && old(rows)[i].userId != userId ==> old(rows)[i] in rows
    {
      FilterKeepsUniqueIds(rows, NotOwnedBy(userId));
      rows := Filter(rows, NotOwnedBy(userId));
    }
  }

  /** Removing rows never makes two ids collide. */
  lemma {:induction false} FilterKeepsUniqueIds(rows: seq<Article>, p: Article -> bool)
    requires UniqueIds(rows)
    ensures UniqueIds(Filter(rows, p))
  {
    if rows != [] {
      FilterKeepsUniqueIds(rows[1..], p);
      var rest := Filter(rows[1..], p);
      forall k | 0 <= k < |rest|
        ensures rest[k].id != rows[0].id
      {
        assert rest[k] in rows[1..];
      }
    }
  }
}

=== FILE: authoring_page.dfy ===
/**
 * The article authoring page: its reference-text list, the request it
 * submits, and the quota gate on the submit button. React state becomes the
 * fields of `ArticlesPage`; each `set...` call becomes an assignment.
 */
module AuthoringPage {
  import opened Wrappers
  import opened Js
  import opened Seqs
  import opened Schemas
  import opened Quota

  const FallbackImagePrompt: string := "Article cover image"

  /** `createReferenceText`: a new untitled reference text; `id` is the fresh UUID. */
  function CreateReferenceText(content: string, id: string): (t: ReferenceText)
    ensures EncodeText(t) == Obj(map["id" := Str(id), "content" := Str(content)])
  {
    ReferenceText(id, None, content)
  }

  function IdIsNot(id: string): ReferenceText -> bool {
    (t: ReferenceText) => t.id != id
  }

  /** `description || "Article cover image"`: only the empty string is falsy. */
  function ImagePrompt(description: string): (p: string)
    ensures p == description || (description == [] && p == FallbackImagePrompt)
    ensures HasNonWhitespace(p) <==> description == [] || HasNonWhitespace(description)
  {
    assert !IsWhitespace(FallbackImagePrompt[0]);
    if Truthy(Str(description)) then description else FallbackImagePrompt
  }

  /** The request `handleSubmit` sends to `/api/articles`. */
  function BuildArticleRequest(description: string, texts: seq<ReferenceText>, images: seq<ReferenceImage>)
    : (req: CreateArticleRequest)
    ensures req.article == ArticleSettings("ja", "professional", "general", Medium, Markdown)
    ensures req.imageGeneration.enabled && req.imageGeneration.style == "photorealistic"
    ensures req.imageGeneration.aspectRatio == Wide && req.imageGeneration.count == Finite(1.0)
    ensures req.description == description && req.texts == texts && req.images == images
    ensures req.imageGeneration.prompt == if description == "" then FallbackImagePrompt else description
  {
    CreateArticleRequest(
      ArticleSettings("ja", "professional", "general", Medium, Markdown),
      description,
      texts,
      images,
      ImageGeneration(true, ImagePrompt(description), "photorealistic", Wide, Finite(1.0)))
  }

  /** The request `handleSubmit` sends to `/api/images`, copied from the article request. */
  function BuildImageRequest(payload: CreateArticleRequest): (req: GenerateImageRequest)
    ensures req.prompt == payload.imageGeneration.prompt && req.style == payload.imageGeneration.style
    ensures req.aspectRatio == payload.imageGeneration.aspectRatio && req.count == payload.imageGeneration.count
    ensures req.seed.None? && req.referenceImageDataUrls.None?
  {
    GenerateImageRequest(
      payload.imageGeneration.prompt,
      payload.imageGeneration.style,
      payload.imageGeneration.aspectRatio,
      payload.imageGeneration.count,
      None,
      None)
  }

  lemma FixedSettingsAreNonBlank()
    ensures HasNonWhitespace("ja") && HasNonWhitespace("professional") && HasNonWhitespace("general")
  {
    assert !IsWhitespace("ja"[0]);
    assert !IsWhitespace("professional"[0]);
    assert !IsWhitespace("general"[0]);
  }

  /**
   * The page's article request passes the server's type guard exactly when the
   * description has a non-whitespace character, whatever the reference lists hold.
   */
  lemma SubmittedRequestValidIff(description: string, texts: seq<ReferenceText>, images: seq<ReferenceImage>)
    ensures ValidateCreateArticleRequest(EncodeCreateRequest(BuildArticleRequest(description, texts, images)))
            <==> HasNonWhitespace(description)
  {
    ValidateEncodedCreateRequest(BuildArticleRequest(description, texts, images));
    FixedSettingsAreNonBlank();
  }

  /**
   * The page's image request is accepted exactly when the description is empty
   * (the fallback prompt is used) or has a non-whitespace character; a
   * whitespace-only description is sent as the prompt and refused.
   */
  lemma SubmittedImageRequestValidIff(description: string, texts: seq<ReferenceText>, images: seq<ReferenceImage>)
    ensures var req := BuildImageRequest(BuildArticleRequest(description, texts, images));
      ValidateGenerateImageRequest(EncodeImageRequest(req)) == Ok
      <==> description == [] || HasNonWhitespace(description)
  {
    var req := BuildImageRequest(BuildArticleRequest(description, texts, images));
    ValidateEncodedImageRequest(req);
    assert !IsWhitespace(FallbackImagePrompt[0]);
  }

  /** `quota ? quota.remaining <= 0 : false`: no loaded quota never blocks. */
  function IsOverLimit(quota: Option<ArticleQuota>): (over: bool)
    ensures quota.None? ==> !over
    ensures quota.Some? && ConsistentQuota(quota.value) ==> (over <==> quota.value.used >= quota.value.limit)
  {
    if quota.Some? then quota.value.remaining <= 0 else false
  }

  /** `disabled={isSubmitting || isOverLimit}` */
  function SubmitDisabled(isSubmitting: bool, quota: Option<ArticleQuota>): (disabled: bool)
    ensures quota.None? ==> disabled == isSubmitting
    ensures quota.Some? && ConsistentQuota(quota.value)
            ==> (disabled <==> isSubmitting || quota.value.used >= quota.value.limit)
  {
    isSubmitting || IsOverLimit(quota)
  }

  /** With a snapshot from the quota endpoint, submit is disabled exactly while submitting or when the window is full. */
  lemma SubmitDisabledIffWindowFull(isSubmitting: bool, table: seq<ArticlesSchema.Article>, userId: string, now: int)
    ensures SubmitDisabled(isSubmitting, Some(GetArticleQuota(table, userId, now)))
            <==> isSubmitting || |CountedPositions(table, userId, now)| >= ArticleRateLimit
    ensures SubmitDisabled(isSubmitting, None) == isSubmitting
  {
  }

  /** With a snapshot from the quota endpoint, the page is over the limit exactly when six articles fall in the window. */
  lemma OverLimitIffWindowFull(table: seq<ArticlesSchema.Article>, userId: string, now: int)
    ensures IsOverLimit(Some(GetArticleQuota(table, userId, now)))
            <==> |CountedPositions(table, userId, now)| >= ArticleRateLimit
  {
  }

  /** Every stored reference text is trimmed and non-blank. */
  ghost predicate TrimmedNonBlank(texts: seq<ReferenceText>) {
    forall k :: 0 <= k < |texts| ==> Trim(texts[k].content) == texts[k].content && HasNonWhitespace(texts[k].content)
  }

  class ArticlesPage {
    var description: string
    var textInput: string
    var textMaterials: seq<ReferenceText>
    var imageMaterials: seq<ReferenceImage>
    var isSubmitting: bool
    var errorMessage: Option<string>
    var quota: Option<ArticleQuota>

    ghost predicate Valid()
      reads this
    {
      TrimmedNonBlank(textMaterials)
    }

    constructor ()
      ensures Valid()
      ensures description == "" && textInput == "" && textMaterials == [] && imageMaterials == []
      ensures !isSubmitting && errorMessage.None? && quota.None?
    {
      description := "";
      textInput := "";
      textMaterials := [];
      imageMaterials := [];
      isSubmitting := false;
      errorMessage := None;
      quota := None;
    }

    /** The description textarea's `onChange`. */
    method SetDescription(value: string)
      modifies this`description
      ensures description == value
    {
      description := value;
    }

    /** The reference-text input's `onChange`. */
    method SetTextInput(value: string)
      modifies this`textInput
      ensures textInput == value
    {
      textInput := value;
    }

    /**
     * `handleAddText`: a blank input changes nothing; otherwise one item holding
     * the trimmed input is appended and the input is cleared.
     */
    method HandleAddText(freshId: string)
      requires Valid()
      modifies this`textMaterials, this`textInput
      ensures Valid()
      ensures !HasNonWhitespace(old(textInput)) ==> textMaterials == old(textMaterials) && textInput == old(textInput)
      ensures HasNonWhitespace(old(textInput)) ==>
        && textMaterials == old(textMaterials) + [ReferenceText(freshId, None, Trim(old(textInput)))]
        && textInput == ""
    {
      if |Trim(textInput)| == 0 {
        return;
      }
      TrimIdempotent(textInput);
      TrimKeepsContent(textInput);
      textMaterials := textMaterials + [CreateReferenceText(Trim(textInput), freshId)];
      textInput := "";
    }

    /** `handleRemoveText`: every item with that id goes, the rest keep their order. */
    method HandleRemoveText(id: string)
      requires Valid()
      modifies this`textMaterials
      ensures Valid()
      ensures textMaterials == Filter(old(textMaterials), IdIsNot(id))
      ensures forall k :: 0 <= k < |textMaterials| ==> textMaterials[k].id != id
      ensures forall k :: 0 <= k < |old(textMaterials)| && old(textMaterials)[k].id != id
                ==> old(textMaterials)[k] in textMaterials
    {
      textMaterials := Filter(textMaterials, IdIsNot(id));
    }

    /**
     * The synchronous part of `handleSubmit`: mark the form as submitting,
     * clear the error, and build the two requests from the current state; every
     * reference text sent is trimmed and non-blank.
     */
    method HandleSubmit() returns (payload: CreateArticleRequest, imageRequest: GenerateImageRequest)
      requires Valid()
      modifies this`isSubmitting, this`errorMessage
      ensures Valid()
      ensures isSubmitting && errorMessage.None?
      ensures payload == BuildArticleRequest(description, textMaterials, imageMaterials)
      ensures imageRequest == BuildImageRequest(payload)
      ensures TrimmedNonBlank(payload.texts)
    {
      isSubmitting := true;
      errorMessage := None;
      payload := BuildArticleRequest(description, textMaterials, imageMaterials);
      imageRequest := BuildImageRequest(payload);
    }
  }

  /** Removing an id from a concatenation removes it from each part, so order is kept. */
  lemma RemoveTextKeepsOrder(front: seq<ReferenceText>, back: seq<ReferenceText>, id: string)
    ensures Filter(front + back, IdIsNot(id)) == Filter(front, IdIsNot(id)) + Filter(back, IdIsNot(id))
  {
    FilterAppend(front, back, IdIsNot(id));
  }

  /** Removing an id nobody has changes nothing. */
  lemma RemoveAbsentText(texts: seq<ReferenceText>, id: string)
    requires forall k :: 0 <= k < |texts| ==> texts[k].id != id
    ensures Filter(texts, IdIsNot(id)) == texts
  {
    FilterAll(texts, IdIsNot(id));
  }
}

=== FILE: images_route.dfy ===
/**
 * `/api/images`: a placeholder cover image. Nothing is generated or stored;
 * the handler picks a size from the aspect ratio and returns a placehold.co URL.
 */
module ImagesRoute {
  import opened Wrappers
  import opened Js
  import opened Schemas

  datatype ImageResponse =
    | ImageUnauthorized
    | ImageBadRequest(error: string)
    | GeneratedImage(imageId: string, url: string)
  {
    function StatusCode(): int {
      match this
      case ImageUnauthorized => 401
      case ImageBadRequest(_) => 400
      case GeneratedImage(_, _) => 200
    }
  }

  /** `payload.aspectRatio === "1:1" ? 1024 : 1200`; the ratio is never validated, so any value may arrive. */
  function Width(aspectRatio: Value): (w: int)
    ensures w == 1024 || w == 1200
    ensures w == 1024 <==> aspectRatio == Str("1:1")
  {
    if aspectRatio == Str("1:1") then 1024 else 1200
  }

  /** `payload.aspectRatio === "4:3" ? 900 : 675` */
  function Height(aspectRatio: Value): (h: int)
    ensures h == 675 || h == 900
    ensures h == 900 <==> aspectRatio == Str("4:3")
  {
    if aspectRatio == Str("4:3") then 900 else 675
  }

  /**
   * The sizes per ratio: 16:9 and 4:3 get exactly their proportions, while
   * 1:1 gets 1024 x 675, which is not square; anything else falls back to 1200 x 675.
   */
  lemma PlaceholderSizes(aspectRatio: Value)
    ensures aspectRatio == Str("16:9") ==> Width(aspectRatio) == 1200 && Height(aspectRatio) == 675
                                           && Width(aspectRatio) * 9 == Height(aspectRatio) * 16
    ensures aspectRatio == Str("4:3") ==> Width(aspectRatio) == 1200 && Height(aspectRatio) == 900
                                          && Width(aspectRatio) * 3 == Height(aspectRatio) * 4
    ensures aspectRatio == Str("1:1") ==> Width(aspectRatio) == 1024 && Height(aspectRatio) == 675
                                          && Width(aspectRatio) != Height(aspectRatio)
    ensures aspectRatio !in {Str("16:9"), Str("4:3"), Str("1:1")}
            ==> Width(aspectRatio) == 1200 && Height(aspectRatio) == 675
  {
  }

  function DigitChar(d: int): (c: char)
    requires 0 <= d < 10
    ensures '0' <= c <= '9'
  {
    ('0' as int + d) as char
  }

  function DigitValue(c: char): int {
    c as int - '0' as int
  }

  predicate AllDigits(s: string) {
    forall k :: 0 <= k < |s| ==> '0' <= s[k] <= '9'
  }

  /** A number inside a template literal: its decimal digits, no leading zero. */
  function NatToDecimal(n: nat): (s: string)
    ensures s != [] && AllDigits(s)
    ensures |s| > 1 ==> s[0] != '0'
  {
    if n < 10 then [DigitChar(n)] else NatToDecimal(n / 10) + [DigitChar(n % 10)]
  }

  /** The number a string of decimal digits denotes. */
  function DecimalValue(s: string): nat
    requires AllDigits(s)
  {
    if s == [] then 0
    else DecimalValue(s[..|s| - 1]) * 10 + DigitValue(s[|s| - 1])
  }

  /** Reading the digits back gives the number. */
  lemma {:induction false} DecimalRoundTrip(n: nat)
    ensures DecimalValue(NatToDecimal(n)) == n
  {
    var s := NatToDecimal(n);
    if n >= 10 {
      DecimalRoundTrip(n / 10);
      assert s[..|s| - 1] == NatToDecimal(n / 10);
    }
  }

  function PlaceholderUrl(width: nat, height: nat): string {
    "https://placehold.co/" + NatToDecimal(width) + "x" + NatToDecimal(height) + "/png?text=Generated+Image"
  }

  lemma DecimalOfSizes()
    ensures NatToDecimal(1200) == "1200" && NatToDecimal(1024) == "1024"
    ensures NatToDecimal(675) == "675" && NatToDecimal(900) == "900"
  {
    assert NatToDecimal(12) == "12";
    assert NatToDecimal(120) == "120";
    assert NatToDecimal(102) == "102";
    assert NatToDecimal(67) == "67";
    assert NatToDecimal(90) == "90";
  }

  /** The URLs the three typed aspect ratios produce. */
  lemma PlaceholderUrls()
    ensures PlaceholderUrl(1200, 675) == "https://placehold.co/1200x675/png?text=Generated+Image"
    ensures PlaceholderUrl(1200, 900) == "https://placehold.co/1200x900/png?text=Generated+Image"
    ensures PlaceholderUrl(1024, 675) == "https://placehold.co/1024x675/png?text=Generated+Image"
  {
    DecimalOfSizes();
    WideUrl();
    StandardUrl();
    SquareUrl();
  }

  lemma WideUrl()
    requires NatToDecimal(1200) == "1200" && NatToDecimal(675) == "675"
    ensures PlaceholderUrl(1200, 675) == "https://placehold.co/1200x675/png?text=Generated+Image"
  {
  }

  lemma StandardUrl()
    requires NatToDecimal(1200) == "1200" && NatToDecimal(900) == "900"
    ensures PlaceholderUrl(1200, 900) == "https://placehold.co/1200x900/png?text=Generated+Image"
  {
  }

  lemma SquareUrl()
    requires NatToDecimal(1024) == "1024" && NatToDecimal(675) == "675"
    ensures PlaceholderUrl(1024, 675) == "https://placehold.co/1024x675/png?text=Generated+Image"
  {
  }

  /**
   * POST: 401 without a session, 400 with exactly the validator's message,
   * otherwise the fresh id and the placeholder URL for the requested ratio.
   */
  function Post(session: Option<string>, payload: Value, freshId: string): (r: ImageResponse)
    ensures session.None? ==> r == ImageUnauthorized
    ensures session.Some? && ValidateGenerateImageRequest(payload).Invalid?
            ==> r == ImageBadRequest(ValidateGenerateImageRequest(payload).error)
    ensures r.GeneratedImage? <==> (session.Some? && payload.Obj? && IsNonEmptyString(Member(payload, "prompt"))
                                    && IsPositiveFinite(Member(payload, "count")))
    ensures r.GeneratedImage? ==> r.imageId == freshId
    ensures r.GeneratedImage? && Member(payload, "aspectRatio") == Str("16:9")
            ==> r.url == "https://placehold.co/1200x675/png?text=Generated+Image"
    ensures r.GeneratedImage? && Member(payload, "aspectRatio") == Str("4:3")
            ==> r.url == "https://placehold.co/1200x900/png?text=Generated+Image"
    ensures r.GeneratedImage? && Member(payload, "aspectRatio") == Str("1:1")
            ==> r.url == "https://placehold.co/1024x675/png?text=Generated+Image"
    ensures r.GeneratedImage? && Member(payload, "aspectRatio") !in {Str("16:9"), Str("4:3"), Str("1:1")}
            ==> r.url == "https://placehold.co/1200x675/png?text=Generated+Image"
  {
    if session.None? then ImageUnauthorized
    else
      var validation := ValidateGenerateImageRequest(payload);
      if validation.Invalid? then ImageBadRequest(validation.error)
      else
        var imageId := freshId;
        var width := Width(Member(payload, "aspectRatio"));
        var height := Height(Member(payload, "aspectRatio"));
        PlaceholderUrls();
        GeneratedImage(imageId, PlaceholderUrl(width, height))
  }

  /** A valid typed request gets the size of its ratio, whatever its style or seed. */
  lemma TypedRequestSize(userId: string, req: GenerateImageRequest, freshId: string)
    requires HasNonWhitespace(req.prompt) && req.count.Finite? && req.count.value > 0.0
    ensures var r := Post(Some(userId), EncodeImageRequest(req), freshId);
      && r.GeneratedImage?
      && r.url == PlaceholderUrl(if req.aspectRatio == Square then 1024 else 1200,
                                 if req.aspectRatio == Standard then 900 else 675)
  {
    ValidateEncodedImageRequest(req);
    var p := EncodeImageRequest(req);
    assert Member(p, "aspectRatio") == Str(req.aspectRatio.Text());
  }
}

=== FILE: js.dfy ===
/**
 * The slice of JavaScript value semantics that the request validators rely on:
 * the values `request.json()` can produce (plus `undefined`, the value of a
 * missing property), truthiness, `typeof`, property access and
 * `String.prototype.trim`.
 */
module Js {

  /** A JavaScript number: finite, or one of the three non-finite values. */
  datatype Number = Finite(value: real) | PosInfinity | NegInfinity | NaN

  datatype Value =
    | Undefined
    | Null
    | Bool(b: bool)
    | Num(n: Number)
    | Str(s: string)
    | Arr(items: seq<Value>)
    | Obj(fields: map<string, Value>)

  /** `!!v`: `undefined`, `null`, `false`, `0`, `NaN` and `""` are falsy. */
  predicate Truthy(v: Value) {
    match v
    case Undefined => false
    case Null => false
    case Bool(b) => b
    case Num(n) => !n.NaN? && n != Finite(0.0)
    case Str(s) => s != []
    case Arr(_) => true
    case Obj(_) => true
  }

  /** The `typeof` operator; `null` and arrays are both "object". */
  function TypeOf(v: Value): string {
    match v
    case Undefined => "undefined"
    case Null => "object"
    case Bool(_) => "boolean"
    case Num(_) => "number"
    case Str(_) => "string"
    case Arr(_) => "object"
    case Obj(_) => "object"
  }

  /** The guard `!v || typeof v !== "object"` fails exactly for arrays and plain objects. */
  lemma ObjectGate(v: Value)
    ensures (Truthy(v) && TypeOf(v) == "object") <==> (v.Arr? || v.Obj?)
  {
  }

  /**
   * Property access `v.key` (and `v?.key`) for the field names the handlers
   * read: an own field of a parsed object, otherwise `undefined`. None of
   * those names is a property that arrays, strings or numbers carry.
   */
  function Member(v: Value, key: string): Value {
    if v.Obj? && key in v.fields then v.fields[key] else Undefined
  }

  /** The characters `trim` removes: ECMAScript WhiteSpace and LineTerminator. */
  predicate IsWhitespace(c: char) {
    c == '\t' || c == '\n' || c == '\U{000B}' || c == '\U{000C}' || c == '\r' || c == ' '
    || c == '\U{00A0}' || c == '\U{1680}' || ('\U{2000}' <= c <= '\U{200A}')
    || c == '\U{2028}' || c == '\U{2029}' || c == '\U{202F}' || c == '\U{205F}'
    || c == '\U{3000}' || c == '\U{FEFF}'
  }

  /** The string holds at least one character that `trim` keeps. */
  ghost predicate HasNonWhitespace(s: string) {
    exists i :: 0 <= i < |s| && !IsWhitespace(s[i])
  }

  /** Number of whitespace characters at the start of `s`. */
  function LeadingWhitespace(s: string): (n: nat)
    ensures n <= |s|
    ensures forall k :: 0 <= k < n ==> IsWhitespace(s[k])
    ensures n < |s| ==> !IsWhitespace(s[n])
  {
    if s != [] && IsWhitespace(s[0]) then 1 + LeadingWhitespace(s[1..]) else 0
  }

  /** Number of whitespace characters at the end of `s`. */
  function TrailingWhitespace(s: string): (n: nat)
    ensures n <= |s|
    ensures forall k :: |s| - n <= k < |s| ==> IsWhitespace(s[k])
    ensures n < |s| ==> !IsWhitespace(s[|s| - 1 - n])
  {
    if s != [] && IsWhitespace(s[|s| - 1]) then 1 + TrailingWhitespace(s[..|s| - 1]) else 0
  }

  /**
   * `String.prototype.trim`: the infix of `s` left after removing whitespace at
   * both ends; empty exactly when `s` has no other character.
   */
  function Trim(s: string): (r: string)
    ensures |r| <= |s|
    ensures r == [] <==> !HasNonWhitespace(s)
    ensures r != [] ==> !IsWhitespace(r[0]) && !IsWhitespace(r[|r| - 1])
    ensures LeadingWhitespace(s) + |r| <= |s|
    ensures r == s[LeadingWhitespace(s)..LeadingWhitespace(s) + |r|]
    ensures forall k :: LeadingWhitespace(s) + |r| <= k < |s| ==> IsWhitespace(s[k])
  {
    var i := LeadingWhitespace(s);
    var t := s[i..];
    var m := TrailingWhitespace(t);
    assert t != [] ==> m < |t|;
    var r := t[..|t| - m];
    assert r == s[i..i + |r|];
    assert !HasNonWhitespace(s) ==> r == [] by {
      if r != [] {
        assert !IsWhitespace(s[i]);
      }
    }
    r
  }

  /** Trimming twice is trimming once. */
  lemma TrimIdempotent(s: string)
    ensures Trim(Trim(s)) == Trim(s)
  {
    var r := Trim(s);
    if r != [] {
      assert LeadingWhitespace(r) == 0;
      assert TrailingWhitespace(r) == 0;
      assert r[0..][..|r| - 0] == r;
    }
  }

  /** What `trim` returns still has a character it would keep, when `s` had one. */
  lemma TrimKeepsContent(s: string)
    requires HasNonWhitespace(s)
    ensures HasNonWhitespace(Trim(s))
  {
    var r := Trim(s);
    assert !IsWhitespace(r[0]);
  }
}

=== FILE: quota.dfy ===
/**
 * The per-user sliding-window article quota: at most `ArticleRateLimit`
 * articles per `ArticleWindowMs`, counted afresh from the table at every query.
 * The clock is the parameter `now` (milliseconds).
 */
module Quota {
  import opened Wrappers
  import opened Seqs
  import opened ArticlesSchema

  const ArticleRateLimit: int := 6
  const ArticleWindowMs: int := 24 * 60 * 60 * 1000

  datatype ArticleQuota = ArticleQuota(
    limit: int,
    used: int,
    remaining: int,
    nextRefillAt: Option<int>,
    windowMs: int)

  /** The rows the quota counts: `user_id = userId and created_at >= cutoff` (inclusive). */
  function InWindow(userId: string, cutoff: int): Article -> bool {
    (a: Article) => a.userId == userId && a.createdAt >= cutoff
  }

  /** Positions of the table whose row counts against `userId`'s quota at `now`. */
  ghost function CountedPositions(table: seq<Article>, userId: string, now: int): set<int> {
    set i | 0 <= i < |table| && table[i].userId == userId && table[i].createdAt >= now - ArticleWindowMs
  }

  /** `t` is the creation time of some row that counts against `userId` at `now`. */
  ghost predicate IsCountedStamp(table: seq<Article>, userId: string, now: int, t: int) {
    exists i :: i in CountedPositions(table, userId, now) && table[i].createdAt == t
  }

  function CreatedAt(a: Article): int {
    a.createdAt
  }

  /** Sort key of a selected timestamp: the timestamp itself. */
  function Millis(t: int): int {
    t
  }

  /**
   * The `createdAt` of every row that counts against `userId` at `now`, one per
   * row, newest first.
   */
  function GetRecentArticles(table: seq<Article>, userId: string, now: int): (rows: seq<int>)
    ensures SortedDescBy(rows, Millis)
    ensures |rows| == |CountedPositions(table, userId, now)|
    ensures multiset(rows) == multiset(MapSeq(Filter(table, InWindow(userId, now - ArticleWindowMs)), CreatedAt))
  {
    var inWindow := InWindow(userId, now - ArticleWindowMs);
    SelectProjectSort(table, inWindow, CreatedAt, Millis);
    assert IndicesWhere(table, inWindow) == CountedPositions(table, userId, now);
    SortDescBy(MapSeq(Filter(table, inWindow), CreatedAt), Millis)
  }

  /** The recent rows are exactly the creation times of the counted rows. */
  lemma RecentArticlesAreCounted(table: seq<Article>, userId: string, now: int)
    ensures var rows := GetRecentArticles(table, userId, now);
      && (forall k :: 0 <= k < |rows| ==> IsCountedStamp(table, userId, now, rows[k]))
      && (forall i :: i in CountedPositions(table, userId, now) ==> table[i].createdAt in rows)
  {
    var inWindow := InWindow(userId, now - ArticleWindowMs);
    var rows := GetRecentArticles(table, userId, now);
    SelectProjectSort(table, inWindow, CreatedAt, Millis);
    forall k | 0 <= k < |rows|
      ensures IsCountedStamp(table, userId, now, rows[k])
    {
      ImageIsCounted(table, userId, now, rows[k]);
    }
  }

  lemma ImageIsCounted(table: seq<Article>, userId: string, now: int, t: int)
    requires IsImageOfSelected(table, InWindow(userId, now - ArticleWindowMs), CreatedAt, t)
    ensures IsCountedStamp(table, userId, now, t)
  {
    var i :| 0 <= i < |table| && InWindow(userId, now - ArticleWindowMs)(table[i]) && CreatedAt(table[i]) == t;
    assert i in CountedPositions(table, userId, now);
  }

  /** The moment a row created at `t` stops counting. */
  function RefillAt(t: int): int {
    t + ArticleWindowMs
  }

  /** `Math.min(...s)` for a non-empty list. */
  function MinOf(s: seq<int>): (m: int)
    requires s != []
    ensures m in s
    ensures forall k :: 0 <= k < |s| ==> m <= s[k]
  {
    if |s| == 1 then s[0]
    else
      var rest := MinOf(s[1..]);
      if s[0] <= rest then s[0] else rest
  }

  function Max(a: int, b: int): int {
    if a >= b then a else b
  }

  /** A snapshot whose `remaining` is `max(limit - used, 0)`, as every snapshot the endpoint serves is. */
  predicate ConsistentQuota(q: ArticleQuota) {
    q.remaining == Max(q.limit - q.used, 0)
  }

  /** getArticleQuota: the quota snapshot of `userId` at `now`. */
  function GetArticleQuota(table: seq<Article>, userId: string, now: int): (q: ArticleQuota)
    ensures q.limit == ArticleRateLimit && q.windowMs == ArticleWindowMs
    ensures q.used == |CountedPositions(table, userId, now)|
    ensures 0 <= q.remaining <= q.limit
    ensures q.used < q.limit ==> q.remaining == q.limit - q.used
    ensures q.remaining == 0 <==> q.used >= q.limit
    ensures q.nextRefillAt.None? <==> q.used == 0
  {
    var rows := GetRecentArticles(table, userId, now);
    var used := |rows|;
    var remaining := Max(ArticleRateLimit - used, 0);
    var nextRefillAt := if used == 0 then None else Some(MinOf(MapSeq(rows, RefillAt)));
    ArticleQuota(ArticleRateLimit, used, remaining, nextRefillAt, ArticleWindowMs)
  }

  /**
   * The next refill is the end of the window of a counted row, and no counted
   * row leaves the window earlier.
   */
  lemma QuotaRefillIsEarliest(table: seq<Article>, userId: string, now: int)
    ensures var q := GetArticleQuota(table, userId, now);
      q.nextRefillAt.Some? ==>
        && (exists i :: i in CountedPositions(table, userId, now) && q.nextRefillAt.value == table[i].createdAt + ArticleWindowMs)
        && (forall i :: i in CountedPositions(table, userId, now) ==> q.nextRefillAt.value <= table[i].createdAt + ArticleWindowMs)
  {
    var q := GetArticleQuota(table, userId, now);
    var rows := GetRecentArticles(table, userId, now);
    RecentArticlesAreCounted(table, userId, now);
    if q.nextRefillAt.Some? {
      var refills := MapSeq(rows, RefillAt);
      var m := MinOf(refills);
      assert q.nextRefillAt.value == m;
      var k :| 0 <= k < |refills| && refills[k] == m;
      assert IsCountedStamp(table, userId, now, rows[k]);
      var i :| i in CountedPositions(table, userId, now) && table[i].createdAt == rows[k];
      assert m == table[i].createdAt + ArticleWindowMs;
      forall j | j in CountedPositions(table, userId, now)
        ensures m <= table[j].createdAt + ArticleWindowMs
      {
        var t := table[j].createdAt;
        assert t in rows;
        var kj :| 0 <= kj < |rows| && rows[kj] == t;
        assert refills[kj] == t + ArticleWindowMs;
      }
    }
  }

  /** A refill is never in the past: every counted row was created at or after `now - window`. */
  lemma QuotaRefillNotBeforeNow(table: seq<Article>, userId: string, now: int)
    ensures var q := GetArticleQuota(table, userId, now);
      q.nextRefillAt.Some? ==> now <= q.nextRefillAt.value
  {
    var q := GetArticleQuota(table, userId, now);
    QuotaRefillIsEarliest(table, userId, now);
    if q.nextRefillAt.Some? {
      var i :| i in CountedPositions(table, userId, now)
        && q.nextRefillAt.value == table[i].createdAt + ArticleWindowMs;
    }
  }

  /** Since the rows come newest first, the next refill belongs to the last (oldest) one. */
  lemma QuotaRefillFromOldestRow(table: seq<Article>, userId: string, now: int)
    ensures var q := GetArticleQuota(table, userId, now);
      var rows := GetRecentArticles(table, userId, now);
      q.nextRefillAt.Some? ==> rows != [] && q.nextRefillAt.value == rows[|rows| - 1] + ArticleWindowMs
  {
    var q := GetArticleQuota(table, userId, now);
    var rows := GetRecentArticles(table, userId, now);
    if q.nextRefillAt.Some? {
      var refills := MapSeq(rows, RefillAt);
      var m := MinOf(refills);
      var last := |rows| - 1;
      assert m <= refills[last];
      var k :| 0 <= k < |refills| && refills[k] == m;
      assert k <= last;
      assert k < last ==> Millis(rows[k]) >= Millis(rows[last]);
      assert refills[k] == rows[k] + ArticleWindowMs;
    }
  }

  /** One more row of `userId` inside the window uses up exactly one more slot. */
  lemma QuotaAppendCounted(table: seq<Article>, a: Article, userId: string, now: int)
    requires a.userId == userId && a.createdAt >= now - ArticleWindowMs
    ensures var before := GetArticleQuota(table, userId, now);
      var after := GetArticleQuota(table + [a], userId, now);
      && after.used == before.used + 1
      && after.remaining <= before.remaining
      && (before.remaining > 0 ==> after.remaining == before.remaining - 1)
  {
    var old_ := CountedPositions(table, userId, now);
    var new_ := CountedPositions(table + [a], userId, now);
    assert |table| !in old_;
    assert new_ == old_ + {|table|};
  }

  /** A row of another user, or one created before the window, changes nothing. */
  lemma QuotaAppendUncounted(table: seq<Article>, a: Article, userId: string, now: int)
    requires a.userId != userId || a.createdAt < now - ArticleWindowMs
    ensures GetArticleQuota(table + [a], userId, now) == GetArticleQuota(table, userId, now)
  {
    var p := InWindow(userId, now - ArticleWindowMs);
    FilterAppend(table, [a], p);
    assert Filter([a], p) == [] + Filter([], p);
    assert Filter(table + [a], p) == Filter(table, p);
  }

  /** After the cascade delete of a user, nothing counts against that user. */
  lemma QuotaAfterUserDeleted(table: seq<Article>, userId: string, now: int)
    ensures var q := GetArticleQuota(Filter(table, NotOwnedBy(userId)), userId, now);
      q.used == 0 && q.remaining == ArticleRateLimit && q.nextRefillAt.None?
  {
    var rest := Filter(table, NotOwnedBy(userId));
    assert CountedPositions(rest, userId, now) == {} by {
      forall i | 0 <= i < |rest|
        ensures rest[i].userId != userId
      {
        assert NotOwnedBy(userId)(rest[i]);
      }
    }
  }

  /** Two tables that agree, row by row, on owner and creation time select the same timestamps. */
  lemma {:induction false} SameOwnersAndTimesSelectAlike(a: seq<Article>, b: seq<Article>, userId: string, cutoff: int)
    requires |a| == |b|
    requires forall i :: 0 <= i < |a| ==> a[i].userId == b[i].userId && a[i].createdAt == b[i].createdAt
    ensures MapSeq(Filter(a, InWindow(userId, cutoff)), CreatedAt) == MapSeq(Filter(b, InWindow(userId, cutoff)), CreatedAt)
  {
    var p := InWindow(userId, cutoff);
    if a != [] {
      SameOwnersAndTimesSelectAlike(a[1..], b[1..], userId, cutoff);
      var ra := MapSeq(Filter(a[1..], p), CreatedAt);
      var rb := MapSeq(Filter(b[1..], p), CreatedAt);
      var ha := if p(a[0]) then [a[0]] else [];
      var hb := if p(b[0]) then [b[0]] else [];
      assert p(a[0]) == p(b[0]);
      assert Filter(a, p) == ha + Filter(a[1..], p);
      assert Filter(b, p) == hb + Filter(b[1..], p);
      MapSeqAppend(ha, Filter(a[1..], p), CreatedAt);
      MapSeqAppend(hb, Filter(b[1..], p), CreatedAt);
      assert MapSeq(ha, CreatedAt) == MapSeq(hb, CreatedAt);
    }
  }

  /** An update never frees or uses up quota: it keeps every row's owner and creation time. */
  lemma QuotaUnchangedByUpdate(table: seq<Article>, id: string, patch: ArticlePatch, at: int, userId: string, now: int)
    ensures GetArticleQuota(UpdateRows(table, id, patch, at), userId, now) == GetArticleQuota(table, userId, now)
  {
    SameOwnersAndTimesSelectAlike(UpdateRows(table, id, patch, at), table, userId, now - ArticleWindowMs);
  }

  /**
   * Six or more of the user's articles inside the window, in a table shared
   * with any other rows, exhaust the quota, and the next slot opens when the
   * oldest of them leaves the window.
   */
  lemma SixInWindowExhaustQuota(table: seq<Article>, userId: string, now: int)
    requires |CountedPositions(table, userId, now)| >= ArticleRateLimit
    ensures var q := GetArticleQuota(table, userId, now);
      && q.used >= ArticleRateLimit && q.remaining == 0
      && q.nextRefillAt.Some?
      && (forall i :: i in CountedPositions(table, userId, now) ==> q.nextRefillAt.value <= table[i].createdAt + ArticleWindowMs)
      && (exists i :: i in CountedPositions(table, userId, now) && q.nextRefillAt.value == table[i].createdAt + ArticleWindowMs)
  {
    QuotaRefillIsEarliest(table, userId, now);
  }
}

=== FILE: schemas.dfy ===
/**
 * Request types of the article generator and the two validators the API
 * routes apply to untyped JSON payloads.
 */
module Schemas {
  import opened Wrappers
  import opened Js

  /** The lifecycle states an article row's `status` column may hold. */
  datatype ArticleStatus = Queued | Generating | Completed | Error {
    function Text(): string {
      match this
      case Queued => "queued"
      case Generating => "generating"
      case Completed => "completed"
      case Error => "error"
    }
  }

  function ParseStatus(s: string): (r: Option<ArticleStatus>)
    ensures r.Some? ==> r.value.Text() == s
  {
    if s == "queued" then Some(Queued)
    else if s == "generating" then Some(Generating)
    else if s == "completed" then Some(Completed)
    else if s == "error" then Some(Error)
    else None
  }

  /** Every status is stored as a text that reads back as that status. */
  lemma StatusTextRoundTrip(st: ArticleStatus)
    ensures ParseStatus(st.Text()) == Some(st)
  {
  }

  datatype ReferenceText = ReferenceText(id: string, title: Option<string>, content: string)

  datatype ReferenceImage = ReferenceImage(id: string, filename: string, mimeType: string, dataUrl: string)

  datatype ArticleLength = Short | Medium | Long {
    function Text(): string {
      match this
      case Short => "short"
      case Medium => "medium"
      case Long => "long"
    }
  }

  datatype ArticleFormat = Markdown | Html | Plain {
    function Text(): string {
      match this
      case Markdown => "markdown"
      case Html => "html"
      case Plain => "plain"
    }
  }

  datatype AspectRatio = Square | Standard | Wide {
    function Text(): string {
      match this
      case Square => "1:1"
      case Standard => "4:3"
      case Wide => "16:9"
    }
  }

  datatype ArticleSettings = ArticleSettings(
    language: string,
    tone: string,
    targetAudience: string,
    length: ArticleLength,
    format: ArticleFormat)

  datatype ImageGeneration = ImageGeneration(
    enabled: bool,
    prompt: string,
    style: string,
    aspectRatio: AspectRatio,
    count: Number)

  datatype CreateArticleRequest = CreateArticleRequest(
    article: ArticleSettings,
    description: string,
    texts: seq<ReferenceText>,
    images: seq<ReferenceImage>,
    imageGeneration: ImageGeneration)

  datatype GenerateImageRequest = GenerateImageRequest(
    prompt: string,
    style: string,
    aspectRatio: AspectRatio,
    count: Number,
    seed: Option<Number>,
    referenceImageDataUrls: Option<seq<string>>)

  /** `{ ok: true }` or `{ ok: false, error }`. */
  datatype ValidationResult = Ok | Invalid(error: string)

  const PayloadError: string := "Payload must be an object."
  const PromptError: string := "Prompt is required."
  const CountError: string := "Count must be a positive number."

  /**
   * The JSON form of a typed request as the server reads it: what the page's
   * `JSON.stringify` sends and `request.json()` parses back, taken to be the
   * same object with the same keys. A non-finite number is kept as such here,
   * whereas `JSON.stringify` writes it as `null`; neither passes
   * `Number.isFinite`, so the validators' verdicts agree.
   */
  function EncodeText(t: ReferenceText): Value {
    var fields := map["id" := Str(t.id), "content" := Str(t.content)];
    Obj(if t.title.Some? then fields["title" := Str(t.title.value)] else fields)
  }

  function EncodeImage(i: ReferenceImage): Value {
    Obj(map["id" := Str(i.id), "filename" := Str(i.filename), "mimeType" := Str(i.mimeType),
            "dataUrl" := Str(i.dataUrl)])
  }

  function EncodeCreateRequest(req: CreateArticleRequest): (r: Value)
    ensures r.Obj? && r.fields.Keys == {"article", "prompt", "references", "imageGeneration"}
    ensures Member(Member(r, "prompt"), "description") == Str(req.description)
    ensures var texts := Member(Member(r, "references"), "texts");
      texts.Arr? && |texts.items| == |req.texts|
      && forall k :: 0 <= k < |req.texts| ==> Member(texts.items[k], "content") == Str(req.texts[k].content)
    ensures var images := Member(Member(r, "references"), "images");
      images.Arr? && |images.items| == |req.images|
    ensures Member(Member(r, "imageGeneration"), "count") == Num(req.imageGeneration.count)
  {
    Obj(map[
      "article" := Obj(map[
        "language" := Str(req.article.language),
        "tone" := Str(req.article.tone),
        "targetAudience" := Str(req.article.targetAudience),
        "length" := Str(req.article.length.Text()),
        "format" := Str(req.article.format.Text())]),
      "prompt" := Obj(map["description" := Str(req.description)]),
      "references" := Obj(map[
        "texts" := Arr(seq(|req.texts|, k requires 0 <= k < |req.texts| => EncodeText(req.texts[k]))),
        "images" := Arr(seq(|req.images|, k requires 0 <= k < |req.images| => EncodeImage(req.images[k])))]),
      "imageGeneration" := Obj(map[
        "enabled" := Bool(req.imageGeneration.enabled),
        "prompt" := Str(req.imageGeneration.prompt),
        "style" := Str(req.imageGeneration.style),
        "aspectRatio" := Str(req.imageGeneration.aspectRatio.Text()),
        "count" := Num(req.imageGeneration.count)])])
  }

  function EncodeImageRequest(req: GenerateImageRequest): (r: Value)
    ensures r.Obj? && {"prompt", "style", "aspectRatio", "count"} <= r.fields.Keys
    ensures "seed" in r.fields <==> req.seed.Some?
    ensures "referenceImageDataUrls" in r.fields <==> req.referenceImageDataUrls.Some?
    ensures Member(r, "prompt") == Str(req.prompt) && Member(r, "count") == Num(req.count)
    ensures Member(r, "aspectRatio") == Str(req.aspectRatio.Text())
  {
    var fields := map[
      "prompt" := Str(req.prompt),
      "style" := Str(req.style),
      "aspectRatio" := Str(req.aspectRatio.Text()),
      "count" := Num(req.count)];
    var withSeed := if req.seed.Some? then fields["seed" := Num(req.seed.value)] else fields;
    Obj(if req.referenceImageDataUrls.Some?
        then withSeed["referenceImageDataUrls" := Arr(seq(|req.referenceImageDataUrls.value|,
               k requires 0 <= k < |req.referenceImageDataUrls.value| => Str(req.referenceImageDataUrls.value[k])))]
        else withSeed)
  }

  /** `typeof value === "string" && value.trim().length > 0` */
  predicate IsNonEmptyString(value: Value)
    ensures IsNonEmptyString(value) <==> value.Str? && HasNonWhitespace(value.s)
  {
    value.Str? && |Trim(value.s)| > 0
  }

  /** `Array.isArray(value)` */
  predicate IsArray(value: Value) {
    value.Arr?
  }

  /** A nested field `v.outer.inner` that holds a string with a non-whitespace character. */
  ghost predicate NonBlankAt(v: Value, outer: string, inner: string) {
    v.Obj? && outer in v.fields && v.fields[outer].Obj? && inner in v.fields[outer].fields
    && v.fields[outer].fields[inner].Str? && HasNonWhitespace(v.fields[outer].fields[inner].s)
  }

  lemma NonBlankAtMember(v: Value, outer: string, inner: string)
    ensures NonBlankAt(v, outer, inner) <==> IsNonEmptyString(Member(Member(v, outer), inner))
  {
  }

  /** The type guard `validateCreateArticleRequest`. */
  predicate ValidateCreateArticleRequest(payload: Value)
    ensures !(payload.Obj? || payload.Arr?) ==> !ValidateCreateArticleRequest(payload)
    ensures ValidateCreateArticleRequest(payload) <==>
      && NonBlankAt(payload, "prompt", "description")
      && Member(Member(payload, "references"), "texts").Arr?
      && Member(Member(payload, "references"), "images").Arr?
      && Member(Member(payload, "imageGeneration"), "enabled").Bool?
      && NonBlankAt(payload, "article", "language")
      && NonBlankAt(payload, "article", "tone")
      && NonBlankAt(payload, "article", "targetAudience")
  {
    ObjectGate(payload);
    NonBlankAtMember(payload, "prompt", "description");
    NonBlankAtMember(payload, "article", "language");
    NonBlankAtMember(payload, "article", "tone");
    NonBlankAtMember(payload, "article", "targetAudience");
    if !Truthy(payload) || TypeOf(payload) != "object" then false
    else
      var candidate := payload;
      && IsNonEmptyString(Member(Member(candidate, "prompt"), "description"))
      && IsArray(Member(Member(candidate, "references"), "texts"))
      && IsArray(Member(Member(candidate, "references"), "images"))
      && TypeOf(Member(Member(candidate, "imageGeneration"), "enabled")) == "boolean"
      && IsNonEmptyString(Member(Member(candidate, "article"), "language"))
      && IsNonEmptyString(Member(Member(candidate, "article"), "tone"))
      && IsNonEmptyString(Member(Member(candidate, "article"), "targetAudience"))
  }

  /** `Number.isFinite(value) && value > 0`, with no coercion of non-numbers. */
  predicate IsPositiveFinite(value: Value) {
    value.Num? && value.n.Finite? && value.n.value > 0.0
  }

  /** `validateGenerateImageRequest`: the first failing check, in a fixed order, names the error. */
  function ValidateGenerateImageRequest(payload: Value): (r: ValidationResult)
    ensures r.Ok? <==> payload.Obj? && IsNonEmptyString(Member(payload, "prompt"))
                       && IsPositiveFinite(Member(payload, "count"))
    ensures !(payload.Obj? || payload.Arr?) ==> r == Invalid(PayloadError)
    ensures (payload.Obj? || payload.Arr?) && !IsNonEmptyString(Member(payload, "prompt"))
            ==> r == Invalid(PromptError)
    ensures (payload.Obj? && IsNonEmptyString(Member(payload, "prompt"))
             && !IsPositiveFinite(Member(payload, "count"))) ==> r == Invalid(CountError)
  {
    if !Truthy(payload) || TypeOf(payload) != "object" then Invalid(PayloadError)
    else
      var candidate := payload;
      if !IsNonEmptyString(Member(candidate, "prompt")) then Invalid(PromptError)
      else
        var count := Member(candidate, "count");
        if !(count.Num? && count.n.Finite?) || count.n.value <= 0.0 then Invalid(CountError)
        else Ok
  }

  /** An array payload is an object to `typeof` but carries none of the fields. */
  lemma ArrayPayloadIsMissingPrompt(items: seq<Value>)
    ensures ValidateGenerateImageRequest(Arr(items)) == Invalid(PromptError)
    ensures !ValidateCreateArticleRequest(Arr(items))
  {
  }

  /** Neither `style`, `aspectRatio`, `seed` nor any other field beside `prompt` and `count` is inspected. */
  lemma ImageValidationIgnoresOtherFields(fields: map<string, Value>, key: string, v: Value)
    requires key != "prompt" && key != "count"
    ensures ValidateGenerateImageRequest(Obj(fields[key := v])) == ValidateGenerateImageRequest(Obj(fields))
  {
    assert Member(Obj(fields[key := v]), "prompt") == Member(Obj(fields), "prompt");
    assert Member(Obj(fields[key := v]), "count") == Member(Obj(fields), "count");
  }

  /**
   * A well-typed creation request passes the type guard exactly when its four
   * free-text settings are non-blank; the reference lists (empty or not), the
   * length, the format and the image settings never make it fail.
   */
  lemma ValidateEncodedCreateRequest(req: CreateArticleRequest)
    ensures ValidateCreateArticleRequest(EncodeCreateRequest(req)) <==>
      && HasNonWhitespace(req.description)
      && HasNonWhitespace(req.article.language)
      && HasNonWhitespace(req.article.tone)
      && HasNonWhitespace(req.article.targetAudience)
  {
    var p := EncodeCreateRequest(req);
    assert Member(Member(p, "prompt"), "description") == Str(req.description);
    assert Member(Member(p, "references"), "texts").Arr?;
    assert Member(Member(p, "references"), "images").Arr?;
    assert Member(Member(p, "imageGeneration"), "enabled") == Bool(req.imageGeneration.enabled);
    assert Member(Member(p, "article"), "language") == Str(req.article.language);
    assert Member(Member(p, "article"), "tone") == Str(req.article.tone);
    assert Member(Member(p, "article"), "targetAudience") == Str(req.article.targetAudience);
  }

  /**
   * A well-typed image request is accepted exactly when its prompt is non-blank
   * and its count is a positive finite number; otherwise the prompt error comes
   * first.
   */
  lemma ValidateEncodedImageRequest(req: GenerateImageRequest)
    ensures var r := ValidateGenerateImageRequest(EncodeImageRequest(req));
      && (r == Ok <==> HasNonWhitespace(req.prompt) && req.count.Finite? && req.count.value > 0.0)
      && (!HasNonWhitespace(req.prompt) ==> r == Invalid(PromptError))
      && (HasNonWhitespace(req.prompt) && !(req.count.Finite? && req.count.value > 0.0) ==> r == Invalid(CountError))
  {
    var p := EncodeImageRequest(req);
    assert Member(p, "prompt") == Str(req.prompt);
    assert Member(p, "count") == Num(req.count);
  }
}

=== FILE: seqs.dfy ===
/**
 * Sequence operations the database performs for the handlers: keeping the rows
 * a `where` clause selects (in table order), projecting them, and
 * `order by ... desc`.
 */
module Seqs {

  /** The elements of `s` that satisfy `p`, in their original order. */
  function Filter<T>(s: seq<T>, p: T -> bool): (r: seq<T>)
    ensures |r| <= |s|
    ensures forall i :: 0 <= i < |r| ==> r[i] in s && p(r[i])
    ensures forall i :: 0 <= i < |s| && p(s[i]) ==> s[i] in r
  {
    if s == [] then []
    else (if p(s[0]) then [s[0]] else []) + Filter(s[1..], p)
  }

  /** Filtering commutes with concatenation, so it keeps the relative order of what it keeps. */
  lemma {:induction false} FilterAppend<T>(a: seq<T>, b: seq<T>, p: T -> bool)
    ensures Filter(a + b, p) == Filter(a, p) + Filter(b, p)
  {
    if a == [] {
      assert a + b == b;
    } else {
      assert (a + b)[1..] == a[1..] + b;
      FilterAppend(a[1..], b, p);
    }
  }

  /** A filter that every element passes keeps the whole sequence. */
  lemma {:induction false} FilterAll<T>(s: seq<T>, p: T -> bool)
    requires forall k :: 0 <= k < |s| ==> p(s[k])
    ensures Filter(s, p) == s
  {
    if s != [] {
      FilterAll(s[1..], p);
      assert s == [s[0]] + s[1..];
    }
  }

  /** Projection commutes with concatenation. */
  lemma MapSeqAppend<T, U>(a: seq<T>, b: seq<T>, f: T -> U)
    ensures MapSeq(a + b, f) == MapSeq(a, f) + MapSeq(b, f)
  {
  }

  /** The positions of `s` whose element satisfies `p`. */
  ghost function IndicesWhere<T>(s: seq<T>, p: T -> bool): set<int> {
    set i | 0 <= i < |s| && p(s[i])
  }

  /** A filter keeps one element for each position that satisfies the predicate. */
  lemma {:induction false} FilterCountsPositions<T>(s: seq<T>, p: T -> bool)
    ensures |Filter(s, p)| == |IndicesWhere(s, p)|
  {
    if s == [] {
      assert IndicesWhere(s, p) == {};
    } else {
      var n := |s| - 1;
      var front := s[..n];
      assert s == front + [s[n]];
      FilterAppend(front, [s[n]], p);
      assert Filter([s[n]], p) == (if p(s[n]) then [s[n]] else []) + Filter([], p);
      FilterCountsPositions(front, p);
      IndicesWhereSnoc(front, s[n], p);
    }
  }

  lemma IndicesWhereSnoc<T>(s: seq<T>, x: T, p: T -> bool)
    ensures |IndicesWhere(s + [x], p)| == |IndicesWhere(s, p)| + (if p(x) then 1 else 0)
  {
    var before := IndicesWhere(s, p);
    var after := IndicesWhere(s + [x], p);
    assert |s| !in before;
    if p(x) {
      assert after == before + {|s|};
    } else {
      assert after == before;
    }
  }

  /** `f` applied to each element, in order. */
  function MapSeq<T, U>(s: seq<T>, f: T -> U): (r: seq<U>)
    ensures |r| == |s|
    ensures forall i :: 0 <= i < |s| ==> r[i] == f(s[i])
  {
    seq(|s|, i requires 0 <= i < |s| => f(s[i]))
  }

  /** Non-increasing by `key`: the order `order by key desc` produces. */
  ghost predicate SortedDescBy<T>(s: seq<T>, key: T -> int) {
    forall i, j :: 0 <= i < j < |s| ==> key(s[i]) >= key(s[j])
  }

  /** Places `x` into an already sorted sequence. */
  function InsertDescBy<T>(x: T, s: seq<T>, key: T -> int): (r: seq<T>)
    requires SortedDescBy(s, key)
    ensures SortedDescBy(r, key)
    ensures multiset(r) == multiset(s) + multiset{x}
    ensures |r| == |s| + 1
    ensures r[0] == x || (s != [] && r[0] == s[0])
  {
    if s == [] || key(x) >= key(s[0]) then [x] + s
    else
      var rest := InsertDescBy(x, s[1..], key);
      assert s == [s[0]] + s[1..];
      assert key(s[0]) >= key(rest[0]);
      [s[0]] + rest
  }

  /** A rearrangement of `s` in non-increasing `key` order (insertion sort). */
  function SortDescBy<T>(s: seq<T>, key: T -> int): (r: seq<T>)
    ensures SortedDescBy(r, key)
    ensures multiset(r) == multiset(s)
    ensures |r| == |s|
  {
    if s == [] then []
    else
      assert s == [s[0]] + s[1..];
      InsertDescBy(s[0], SortDescBy(s[1..], key), key)
  }

  /** `y` is `f` of some element of `s` that satisfies `p`. */
  ghost predicate IsImageOfSelected<T, U>(s: seq<T>, p: T -> bool, f: T -> U, y: U) {
    exists i :: 0 <= i < |s| && p(s[i]) && f(s[i]) == y
  }

  /** Two sequences with the same multiset have the same elements. */
  lemma SameElements<U>(a: seq<U>, b: seq<U>)
    requires multiset(a) == multiset(b)
    ensures forall k :: 0 <= k < |b| ==> b[k] in a
    ensures forall k :: 0 <= k < |a| ==> a[k] in b
  {
    forall k | 0 <= k < |b|
      ensures b[k] in a
    {
      assert b[k] in multiset(b);
    }
    forall k | 0 <= k < |a|
      ensures a[k] in b
    {
      assert a[k] in multiset(a);
    }
  }

  /**
   * `select f from s where p order by key desc`: one result per selected
   * position, each the projection of a selected element, every selected
   * element's projection present, and each projection as often as it is selected.
   */
  lemma SelectProjectSort<T, U>(s: seq<T>, p: T -> bool, f: T -> U, key: U -> int)
    ensures var r := SortDescBy(MapSeq(Filter(s, p), f), key);
      && |r| == |IndicesWhere(s, p)|
      && multiset(r) == multiset(MapSeq(Filter(s, p), f))
      && (forall k :: 0 <= k < |r| ==> IsImageOfSelected(s, p, f, r[k]))
      && (forall i :: 0 <= i < |s| && p(s[i]) ==> f(s[i]) in r)
  {
    var selected := Filter(s, p);
    var projected := MapSeq(selected, f);
    var r := SortDescBy(projected, key);
    FilterCountsPositions(s, p);
    SameElements(projected, r);
    forall k | 0 <= k < |r|
      ensures IsImageOfSelected(s, p, f, r[k])
    {
      assert r[k] in projected;
      var j :| 0 <= j < |projected| && projected[j] == r[k];
      assert selected[j] in s;
      var i :| 0 <= i < |s| && s[i] == selected[j];
      assert p(s[i]) && f(s[i]) == r[k];
    }
    forall i | 0 <= i < |s| && p(s[i])
      ensures f(s[i]) in r
    {
      assert s[i] in selected;
      var j :| 0 <= j < |selected| && selected[j] == s[i];
      assert projected[j] == f(s[i]);
    }
  }
}

=== FILE: wrappers.dfy ===
/** Optional values and success/failure results shared by the other modules. */
module Wrappers {

  /** `null` / `undefined` versus a present value. */
  datatype Option<+T> = None | Some(value: T) {
    function GetOr(default: T): T {
      match this
      case Some(v) => v
      case None => default
    }
  }

  /** The outcome of an operation that may be refused. */
  datatype Result<+T, +E> = Success(value: T) | Failure(error: E)
}
